=== FILE: README.md ===
# Sprint health metrics, modelled in Dafny

The dashboard in `app.py` turns a project's Jira issues into one table row
per issue. It then reduces the table to four scores: Engagement, Task
Quality, Board Quality and an overall Health Score. Each score is drawn as a
gauge coloured red, orange or green. This project models that metric engine
in Dafny and proves what it computes:

- `issue.dfy`: how one issue becomes a row (`fetch_data`, the loop body). It
  covers text defaults, the assignee placeholder, subtask and description
  flags, the first sprint's name and the whole-day duration. It takes the
  fixed-pattern timestamp parser as a parameter and models its failure
  aborting the batch, as well as the unguarded read of the sprint
  attribute, which aborts it too.
- `counting.dfy`: how many rows pass each per-row test (`len(df[mask])`). It
  also models the `value_counts()` tally of rows per assignee.
- `stats.dfy`: pandas' `Series.std()`. This is the sample standard deviation
  (`ddof=1`), which is NaN below two values.
- `metrics.dfy`: `calculate_metrics`. It covers the ten submetrics, the three
  category means, the `weights` table and the weighted health score.
- `severity.dfy`: `get_color`, and the threshold gap it has (see Findings).
- `scenarios.dfy`: whole batches worked through to exact numbers.
- `text.dfy` and `wrappers.dfy`: the string operations used, plus
  `Option`/`Result`.

A pandas float is modelled as `Value = Num(v) | NaN`. NaN arises in one place
only: Balanced Task Distribution, when two or more rows all share one
assignee. `value_counts()` then has a single bucket, whose sample standard
deviation is NaN. That NaN spreads to Engagement and Health.

The model follows the code in four places where it is easy to misread:

- The health score divides by 4, the sum of all four weights including the
  unused "Health Score" entry. It does not divide by 3.
- The Git and Workflow checks compare whole lower-cased summaries, because
  `in` on a NumPy array tests element equality. Only the Comments check looks
  for a substring.
- An empty batch is an error, not a table of default scores. A DataFrame built
  from no rows has no "Summary" column, and line 96 indexes it.
- Balanced Task Distribution can never be negative. The sample standard
  deviation of the bucket sizes is at most the number of rows.

## Model

| member | source | states |
|---|---|---|
| Text.Lower | app.py:80 | each ASCII capital maps to its own lower-case letter (code point + 32); every other character is unchanged |
| Text.LowerStr | app.py:80 | lower-casing keeps the length and lowers every character, ASCII letters only |
| Text.LowerStrFixed | app.py:95 | lower-casing is idempotent, and leaves a string unchanged exactly when it has no capital letter |
| Text.ContainsSpec | app.py:80 | the substring scan answers true exactly when the word occurs at some position of the text |
| Text.BeforeFirst | app.py:51-52 | `split(".")[0]` is a prefix of the text without a '.', ends at the first '.', and is the whole text when there is no '.' |
| Text.BeforeFirstJoin | app.py:51-52 | cutting `p + "." + q` at the first '.' gives back `p` whenever `p` has no '.' |
| Issue.TextOr | app.py:49 | a present, non-empty summary is kept; a missing or empty one becomes the non-empty default |
| Issue.SprintName | app.py:67 | the sprint column holds the first sprint's name exactly when the field is a non-empty list, and is empty otherwise |
| Issue.TimestampText | app.py:51-52 | the text given to the parser is the prefix before the first '.' and contains no '.' |
| Issue.DurationDays | app.py:63 | the duration is the whole days rounded down (`timedelta.days`); it is negative exactly when the update precedes creation, and 0 exactly for a gap under one day |
| Issue.NormalizeIssue | app.py:47-68 | a row exists exactly when both timestamps parse and the sprint attribute exists; otherwise the error names the first failure in source order (created stamp, updated stamp, then the missing `customfield_10020`); key, timestamps and story points are copied; text columns get their defaults; the row is assigned exactly when a real assignee other than "Unassigned" is named; subtask and description columns follow their fields; the sprint column is the first listed sprint's name |
| Issue.NormalizeBatch | app.py:45-70 | a successful batch has one row per issue |
| Issue.NormalizeBatchSpec | app.py:45-70 | the batch succeeds exactly when every issue does; row i is issue i's row; a failure carries the first failing issue's error |
| Counting.HoldsSpec | app.py:78-95 | the per-row masks: the comment test holds exactly when "comment" occurs somewhere in the lower-cased summary; the backlog test ignores case (its last clause, that a named assignee other than the placeholder implies assigned, is a convenience that follows from the mask definitions) |
| Counting.MasksOfIssue | app.py:49-95 | for a fetched issue's row, each mask reads the field it comes from: assigned iff a real assignee is named, subtasks iff the subtask list is non-empty, description iff it is truthy, story points iff present; a missing status is never "backlog" and a missing summary never mentions comments |
| Counting.Count | app.py:78 | `len(df[mask])` never exceeds the number of rows |
| Counting.ValueCounts | app.py:79 | `value_counts()` has at most one bucket per row, and none exactly for an empty batch |
| Counting.CountAppend | app.py:78 | counting rows that pass a test adds up over concatenated batches |
| Counting.CountAllIff | app.py:78-81 | the count equals the row count exactly when every row passes |
| Counting.CountZeroIff | app.py:78-81 | the count is zero exactly when no row passes |
| Counting.ValueCountsSpec | app.py:79 | `value_counts()` has one non-empty bucket per distinct assignee that appears; bucket sizes sum to the row count; each size is that assignee's row count |
| Counting.SingleBucketIff | app.py:79 | there is a single bucket exactly when the batch is non-empty and every row has the same assignee |
| Stats.ScaledDevZeroIff | app.py:79 | the scaled squared deviations vanish exactly when every value sits at the mean |
| Stats.SampleVariance | app.py:79 | the `ddof=1` variance exists exactly for two or more values, lies in [0, S^2] for the sum S, and is 0 exactly when all values are equal |
| Stats.SampleVarianceIsDdof1 | app.py:79 | the variance equals the sum of squared deviations from the mean divided by k - 1 (pandas' default `ddof=1`) |
| Stats.VarianceOfOneTwoThree | app.py:79 | counts 1, 2, 3 have variance 1, where dividing by k would give 2/3 |
| Stats.SampleStd | app.py:79 | `std()` is NaN exactly below two values; otherwise it is the given root of the sample variance (pinned by Stats.SampleVarianceIsDdof1), lies in [0, S] and is 0 exactly when all values are equal |
| Metrics.Percent | app.py:78 | `count / total * 100` is the empty default without rows; otherwise it is 100 · count / total (percent times total equals 100 times count), lies in [0, 100], and is 100 iff all count and 0 iff none do |
| Metrics.EngagementOf | app.py:77-83 | the four Engagement submetrics: the shares lie in [0, 100], an empty batch gives 0, 100, 0, 0, Balanced is NaN exactly for two or more rows with one assignee, and the mean is NaN exactly when Balanced is |
| Metrics.TaskQualityOf | app.py:86-91 | the three Task Quality shares lie in [0, 100] and are 0 for an empty batch; the mean is 100 exactly when every row has a description, subtasks and story points |
| Metrics.BoardQualityOf | app.py:94-99 | Backlog Managed lies in [0, 100] and is 100 for an empty batch; Git and Workflow are 0 or 100, and 100 exactly when some whole summary is the word; the mean lies in [0, 100] |
| Metrics.Ratio | app.py:78-81 | a share is the empty default for no rows; otherwise it is 100 times the number of passing rows over the number of rows, lies in [0, 100], and is 100 exactly when every row passes and 0 exactly when none does |
| Metrics.SummaryIs | app.py:96-97 | the array-membership test is true exactly when some lower-cased summary equals the word |
| Metrics.Flag | app.py:96-97 | the Git and Workflow submetrics are 100 exactly when some whole summary equals the word, else 0 |
| Metrics.AssigneeCountsFacts | app.py:79 | the bucket sizes sum to the row count; they are all equal exactly when every assignee holds the same number of rows; fewer than two buckets means an empty batch or one assignee |
| Metrics.Spread | app.py:79 | `100 - s / n * 100`: the result times n is 100 n - 100 s; it lies in [0, 100] when 0 <= s <= n, and is 100 exactly when s is 0 |
| Metrics.BalancedDistribution | app.py:79 | 100 for at most one row; NaN exactly for two or more rows with one assignee; otherwise the std of the per-assignee counts is defined and the share is Spread of that std over the row count; in [0, 100], and 100 exactly when work is spread evenly |
| Metrics.WeightsDivisor | app.py:34-39 | the divisor is the sum of all four weights, 4, while the weights applied sum to 3; perfect categories give 75 |
| Metrics.HealthScore | app.py:102-106 | health is NaN exactly when Engagement is; otherwise it is (1.5 E + T + 0.5 B) / 4 |
| Metrics.CalculateMetrics | app.py:73-113 | an empty batch fails on the missing "Summary" column; otherwise the returned Health is the weighted score of the three returned categories, Task and Board Quality lie in [0, 100], and Engagement is NaN exactly for two or more rows with one assignee, and Health is NaN exactly when Engagement is; otherwise Engagement lies in [0, 100] and Health in [0, 75] |
| Metrics.HealthBounds | app.py:102-106 | with all three categories in [0, 100] health lies in [0, 75]; it reaches 75 when all are 100 |
| Metrics.EmptyBatchDefaults | app.py:78-97 | with no rows every share defaults to 0 except Balanced Distribution and Backlog Managed, which give 100; the batch still fails |
| Metrics.CategoryMeans | app.py:83-99 | each category is the plain mean of its submetrics; the subtasks share enters Engagement and Task Quality with the same value |
| Metrics.SprintWeeksUnused | app.py:73 | the sprint length argument never changes the result |
| Metrics.RatioGrowsWithPassingRow | app.py:78 | adding a passing row never lowers a share; it raises the share exactly when some row was failing |
| Severity.GetColor | app.py:116-122 | red exactly for values up to 20; orange exactly for 21 to 35; green exactly for values strictly between 20 and 21, above 35, or NaN |
| Severity.GetColorNotMonotone | app.py:117-119 | 20.5 is drawn green but the larger 21 is drawn orange |
| Severity.IntendedColor | app.py:116-122 | red up to 20, orange above 20 up to 35, green above 35 |
| Severity.IntendedColorMonotone | app.py:116-122 | the intended colour never worsens as the value grows, and matches `get_color` outside the gap (20, 21) |
| Scenarios.TwoIssueBatch | app.py:73-113 | an assigned and an unassigned issue give Engagement 50, Task Quality 100/3, Board Quality 100/3 and Health 31.25 |
| Scenarios.BacklogRowChecks | app.py:80-97 | "Fix git workflow comment handling" counts for Comments, not for Git or Workflow; status "Backlog" is in the backlog |
| Scenarios.OneBacklogIssue | app.py:73-122 | that single unassigned backlog issue gives Engagement 50, Task and Board Quality 0, Health 18.75, drawn red |
| Scenarios.UnevenSpread | app.py:79 | six issues spread 1, 2, 3 over three people give Balanced Distribution 250/3, which pins the k - 1 divisor |
| Scenarios.BoardQualityInGap | app.py:94-122 | eight issues with three in the backlog and no Git or Workflow summary give Board Quality 62.5/3, which lies between 20 and 21 and is drawn green, while 21 is orange |
| Scenarios.SingleAssigneeIsNaN | app.py:79-106 | two issues of one assignee make Engagement and Health NaN, leave Task Quality at 0, and draw the NaN health green |
| Scenarios.GitIsWholeSummaryMatch | app.py:96 | "Set up git" does not configure Git but "GIT" does; "Reply to Comments" counts as a comment task |
| Scenarios.BacklogIsExactStatus | app.py:95 | the status "Backlog" lowers Backlog Managed, while "To Do" and "In Backlog" do not, since the test is whole-status equality |

## Left out

- The Streamlit page, the input fields and their default credentials, the gauge drawing (`render_circular_metrics`) and the backlog table: these are presentation only.
- The Jira client and `search_issues` with its 100-result cap: the model starts from the fetched issues, a sequence of `RawIssue`.
- The polling loop, its `sleep` and its catch-all error display: these cover time and I/O, not the metrics.
- `flask_server.py`: the webhook store is not used by the metric engine.
- `strptime` with the pattern `%Y-%m-%dT%H:%M:%S`: this is a parameter `parse` that gives seconds or nothing. The model fixes only the '.'-cut before it and the order in which the two stamps are tried.
- `str.lower()` beyond ASCII: only 'A'..'Z' are lowered; other Unicode case mappings are not modelled.
- `.encode('utf-8').decode('utf-8')`: this is the identity on every string without unpaired surrogates, which is every string a Dafny `string` can hold. A summary or status holding an unpaired surrogate raises UnicodeEncodeError and aborts the whole batch; that case is not modelled.
- Floating-point rounding: every share and mean is an exact real. NaN is the only special float modelled.
- Stats.SampleStd: the square root is a parameter `sqrt`. Bounds are proved for any function with the root's properties (`IsSqrt`: 0 maps to 0, positive maps to positive, monotone, exact on perfect squares). No particular root is computed.
- The order of `value_counts()` buckets (pandas sorts by size): the standard deviation does not depend on it, so buckets are kept in first-seen order from the end of the batch.
- Issue.NormalizeBatch: its own contract gives only the row count. The full per-issue correspondence is Issue.NormalizeBatchSpec.

## Findings

| source | as written | input that shows it | evidently intended | confidence | as-written member | corrected member |
|---|---|---|---|---|---|---|
| app.py:117-122 | `value <= 20` is red and `21 <= value <= 35` is orange, so values strictly between 20 and 21 fall through to green | 8 issues, 3 with status "Backlog", none titled exactly "git" or "workflow": Board Quality is 62.5/3, about 20.83, and is drawn green, while 21 would be orange (Scenarios.BoardQualityInGap) | everything above 20 up to 35 is orange, so a higher score never gets a worse colour | high (not executed) | Severity.GetColorNotMonotone | Severity.IntendedColorMonotone |

=== FILE: counting.dfy ===
/** Counting rows: how many rows pass each per-row check of the metric
    engine, and the per-assignee tally that pandas' `value_counts` builds. */
module Counting {
  import opened Wrappers
  import opened Issue
  import Text

  /** The per-row tests the submetrics count (app.py, `calculate_metrics`). */
  datatype Check =
    | Assigned           // assignee is not "Unassigned"
    | MentionsComment    // lower-cased summary contains "comment"
    | HasSubtasks        // at least one subtask
    | HasDescription     // the Description column is 1
    | HasStoryPoints     // story points are present
    | NotBacklog         // lower-cased status is not exactly "backlog"
    | AssignedTo(name: string)

  /** Whether `row` passes the test `c`. */
  predicate Holds(c: Check, row: Row) {
    match c
    case Assigned => row.assignee != Unassigned
    case MentionsComment => Text.Contains(Text.LowerStr(row.summary), "comment")
    case HasSubtasks => row.subtasks > 0
    case HasDescription => row.hasDescription
    case HasStoryPoints => row.storyPoints.Some?
    case NotBacklog => Text.LowerStr(row.status) != "backlog"
    case AssignedTo(name) => row.assignee == name
  }

  /** The comment test is Python's substring `in`: "comment" occurs
      somewhere in the lower-cased summary, and the backlog test ignores
      case. The last clause is a convenience for callers: a row held by a
      named assignee other than the placeholder is assigned. */
  lemma HoldsSpec(c: Check, row: Row)
    ensures c == MentionsComment ==>
              (Holds(c, row) <==> exists i :: Text.OccursAt(Text.LowerStr(row.summary), "comment", i))
    ensures c == NotBacklog ==> (Holds(c, row) <==> Holds(c, row.(status := Text.LowerStr(row.status))))
    ensures c.AssignedTo? && c.name != Unassigned && Holds(c, row) ==> Holds(Assigned, row)
  {
    Text.ContainsSpec(Text.LowerStr(row.summary), "comment");
    Text.LowerStrFixed(row.status);
  }

  /** The placeholder summary never mentions comments. */
  lemma NoSummaryHasNoComment(row: Row)
    requires row.summary == NoSummary
    ensures !Holds(MentionsComment, row)
  {
    var lowered := Text.LowerStr(NoSummary);
    assert lowered == "no summary";
    Text.NoOccurrence(lowered, "comment");
    Text.ContainsSpec(lowered, "comment");
  }

  /** The masks in terms of the tracker's fields: for the row of a
      fetched issue, each test reads the issue field it was built from. */
  lemma MasksOfIssue(raw: RawIssue, parse: string -> Option<int>)
    requires NormalizeIssue(raw, parse).Success?
    ensures var row := NormalizeIssue(raw, parse).value;
      && (Holds(Assigned, row) <==> raw.assigneeName.Some? && raw.assigneeName.value != Unassigned)
      && (Holds(HasSubtasks, row) <==> raw.subtasks.Some? && |raw.subtasks.value| > 0)
      && (Holds(HasDescription, row) <==> Truthy(raw.description))
      && (Holds(HasStoryPoints, row) <==> raw.storyPoints.Some?)
      && (raw.statusName.None? ==> Holds(NotBacklog, row))
      && (!Truthy(raw.summary) ==> !Holds(MentionsComment, row))
  {
    var row := NormalizeIssue(raw, parse).value;
    if raw.statusName.None? {
      assert |Text.LowerStr(row.status)| == 9;
    }
    if !Truthy(raw.summary) {
      NoSummaryHasNoComment(row);
    }
  }

  /** The number of rows that pass `c`: `len(df[mask])`. */
  function Count(rows: seq<Row>, c: Check): (n: nat)
    ensures n <= |rows|
    decreases |rows|
  {
    if |rows| == 0 then 0
    else (if Holds(c, rows[0]) then 1 else 0) + Count(rows[1..], c)
  }

  /** Counting distributes over concatenation. */
  lemma {:induction false} CountAppend(a: seq<Row>, b: seq<Row>, c: Check)
    ensures Count(a + b, c) == Count(a, c) + Count(b, c)
    decreases |a|
  {
    if |a| == 0 {
      assert a + b == b;
    } else {
      assert (a + b)[1..] == a[1..] + b;
      CountAppend(a[1..], b, c);
    }
  }

  /** Every row passes exactly when the count is the number of rows. */
  lemma {:induction false} CountAllIff(rows: seq<Row>, c: Check)
    ensures Count(rows, c) == |rows| <==> forall i :: 0 <= i < |rows| ==> Holds(c, rows[i])
    decreases |rows|
  {
    if |rows| > 0 {
      CountAllIff(rows[1..], c);
      if forall i :: 0 <= i < |rows| ==> Holds(c, rows[i]) {
        forall i | 0 <= i < |rows| - 1 ensures Holds(c, rows[1..][i]) {
          assert rows[1..][i] == rows[i + 1];
        }
      }
      if Count(rows, c) == |rows| {
        forall i | 0 <= i < |rows| ensures Holds(c, rows[i]) {
          if i > 0 { assert rows[i] == rows[1..][i - 1]; }
        }
      }
    }
  }

  /** No row passes exactly when the count is zero. */
  lemma {:induction false} CountZeroIff(rows: seq<Row>, c: Check)
    ensures Count(rows, c) == 0 <==> forall i :: 0 <= i < |rows| ==> !Holds(c, rows[i])
    decreases |rows|
  {
    if |rows| > 0 {
      CountZeroIff(rows[1..], c);
      if forall i :: 0 <= i < |rows| ==> !Holds(c, rows[i]) {
        forall i | 0 <= i < |rows| - 1 ensures !Holds(c, rows[1..][i]) {
          assert rows[1..][i] == rows[i + 1];
        }
      }
      if Count(rows, c) == 0 {
        forall i | 0 <= i < |rows| ensures !Holds(c, rows[i]) {
          if i > 0 { assert rows[i] == rows[1..][i - 1]; }
        }
      }
    }
  }

  /** One entry of `value_counts`: an assignee and the number of its rows. */
  datatype Bucket = Bucket(assignee: string, size: nat)

  /** No assignee has two buckets. */
  predicate DistinctAssignees(t: seq<Bucket>) {
    forall i, j :: 0 <= i < j < |t| ==> t[i].assignee != t[j].assignee
  }

  /** The size recorded for `name`, or 0 when it has no bucket. */
  function SizeOf(t: seq<Bucket>, name: string): nat
    decreases |t|
  {
    if |t| == 0 then 0
    else if t[0].assignee == name then t[0].size
    else SizeOf(t[1..], name)
  }

  /** The sum of all bucket sizes. */
  function TotalSize(t: seq<Bucket>): nat
    decreases |t|
  {
    if |t| == 0 then 0 else t[0].size + TotalSize(t[1..])
  }

  /** Records one more row for `name`: its bucket grows by one, or a new
      bucket of size 1 is appended. */
  function Bump(t: seq<Bucket>, name: string): (t': seq<Bucket>)
    ensures |t| <= |t'| <= |t| + 1
    ensures |t'| > 0
    decreases |t|
  {
    if |t| == 0 then [Bucket(name, 1)]
    else if t[0].assignee == name then [Bucket(name, t[0].size + 1)] + t[1..]
    else [t[0]] + Bump(t[1..], name)
  }

  /** `df["Assignee"].value_counts()`: one bucket per distinct assignee
      (the "Unassigned" placeholder is an assignee like any other). The
      bucket order differs from pandas', which sorts by size; the standard
      deviation taken of it does not depend on the order. */
  function ValueCounts(rows: seq<Row>): (t: seq<Bucket>)
    ensures |t| <= |rows|
    ensures |t| == 0 <==> |rows| == 0
    decreases |rows|
  {
    if |rows| == 0 then [] else Bump(ValueCounts(rows[1..]), rows[0].assignee)
  }

  /** The bucket sizes alone. */
  function Sizes(t: seq<Bucket>): (s: seq<nat>)
    ensures |s| == |t|
    ensures forall i :: 0 <= i < |t| ==> s[i] == t[i].size
  {
    seq(|t|, i requires 0 <= i < |t| => t[i].size)
  }

  /** `name` has a bucket in `t`. */
  predicate HasBucket(t: seq<Bucket>, name: string) {
    exists i :: 0 <= i < |t| && t[i].assignee == name
  }

  /** Bumping keeps every bucket non-empty, adds one row to the total and
      one to `name`'s size, and leaves every other size alone. */
  lemma {:induction false} BumpSizes(t: seq<Bucket>, name: string)
    requires forall i :: 0 <= i < |t| ==> t[i].size > 0
    ensures var t' := Bump(t, name);
      && (forall i :: 0 <= i < |t'| ==> t'[i].size > 0)
      && TotalSize(t') == TotalSize(t) + 1
      && (forall n :: SizeOf(t', n) == SizeOf(t, n) + (if n == name then 1 else 0))
    decreases |t|
  {
    if |t| > 0 && t[0].assignee != name {
      BumpSizes(t[1..], name);
      assert Bump(t, name)[1..] == Bump(t[1..], name);
    } else if |t| > 0 {
      assert Bump(t, name)[1..] == t[1..];
    }
  }

  /** After bumping, the assignees with a bucket are the old ones and `name`. */
  lemma {:induction false} BumpKeys(t: seq<Bucket>, name: string)
    ensures forall n :: HasBucket(Bump(t, name), n) <==> HasBucket(t, n) || n == name
    decreases |t|
  {
    if |t| == 0 {
      assert Bump(t, name)[0].assignee == name;
    } else if t[0].assignee == name {
      BumpKeysFront(t, name);
    } else {
      BumpKeys(t[1..], name);
      BumpKeysPast(t, name);
    }
  }

  /** `BumpKeys` when the first bucket is `name`'s own. */
  lemma BumpKeysFront(t: seq<Bucket>, name: string)
    requires |t| > 0 && t[0].assignee == name
    ensures forall n :: HasBucket(Bump(t, name), n) <==> HasBucket(t, n) || n == name
  {
    var t' := Bump(t, name);
    forall n ensures HasBucket(t', n) <==> HasBucket(t, n) || n == name {
      if HasBucket(t', n) {
        var i :| 0 <= i < |t'| && t'[i].assignee == n;
        assert t[i].assignee == n;
      }
      if HasBucket(t, n) {
        var i :| 0 <= i < |t| && t[i].assignee == n;
        assert t'[i].assignee == n;
      }
    }
  }

  /** `BumpKeys` when the first bucket belongs to someone else, given the
      property for the remaining buckets. */
  lemma BumpKeysPast(t: seq<Bucket>, name: string)
    requires |t| > 0 && t[0].assignee != name
    requires forall n :: HasBucket(Bump(t[1..], name), n) <==> HasBucket(t[1..], n) || n == name
    ensures forall n :: HasBucket(Bump(t, name), n) <==> HasBucket(t, n) || n == name
  {
    var t' := Bump(t, name);
    var rest := t[1..];
    var b := Bump(rest, name);
    assert t' == [t[0]] + b;
    forall n ensures HasBucket(t', n) <==> HasBucket(t, n) || n == name {
      if HasBucket(t', n) && n != t[0].assignee {
        var i :| 0 <= i < |t'| && t'[i].assignee == n;
        assert b[i - 1].assignee == n;
      }
      if HasBucket(rest, n) {
        var i :| 0 <= i < |rest| && rest[i].assignee == n;
        assert t[i + 1].assignee == n;
      }
      if HasBucket(t, n) && n != t[0].assignee {
        var i :| 0 <= i < |t| && t[i].assignee == n;
        assert rest[i - 1].assignee == n;
      }
      if HasBucket(b, n) {
        var i :| 0 <= i < |b| && b[i].assignee == n;
        assert t'[i + 1].assignee == n;
      }
      assert t'[0].assignee == t[0].assignee;
    }
  }

  /** Bumping never gives an assignee a second bucket. */
  lemma {:induction false} BumpDistinct(t: seq<Bucket>, name: string)
    requires DistinctAssignees(t)
    ensures DistinctAssignees(Bump(t, name))
    decreases |t|
  {
    var t' := Bump(t, name);
    if |t| > 0 && t[0].assignee != name {
      var rest := t[1..];
      assert DistinctAssignees(rest) by {
        forall i, j | 0 <= i < j < |rest| ensures rest[i].assignee != rest[j].assignee {
          assert rest[i] == t[i + 1] && rest[j] == t[j + 1];
        }
      }
      BumpDistinct(rest, name);
      BumpKeys(rest, name);
      var b := Bump(rest, name);
      assert t' == [t[0]] + b;
      assert !HasBucket(rest, t[0].assignee) by {
        forall k | 0 <= k < |rest| ensures rest[k].assignee != t[0].assignee {
          assert rest[k] == t[k + 1];
        }
      }
      forall i, j | 0 <= i < j < |t'| ensures t'[i].assignee != t'[j].assignee {
        assert t'[j] == b[j - 1];
        if i == 0 {
          assert !HasBucket(b, t[0].assignee);
        } else {
          assert t'[i] == b[i - 1];
        }
      }
    } else if |t| > 0 {
      forall i, j | 0 <= i < j < |t'| ensures t'[i].assignee != t'[j].assignee {
        assert t'[j] == t[j];
        if i > 0 { assert t'[i] == t[i]; }
      }
    }
  }

  /** What `value_counts` promises: one bucket per distinct assignee, each
      bucket the number of rows of that assignee, no empty buckets, and the
      sizes adding up to the number of rows. */
  lemma {:induction false} ValueCountsSpec(rows: seq<Row>)
    ensures var t := ValueCounts(rows);
      && DistinctAssignees(t)
      && (forall i :: 0 <= i < |t| ==> t[i].size > 0)
      && TotalSize(t) == |rows|
      && (forall n :: SizeOf(t, n) == Count(rows, AssignedTo(n)))
      && (forall n :: HasBucket(t, n) <==> exists k :: 0 <= k < |rows| && rows[k].assignee == n)
    decreases |rows|
  {
    if |rows| > 0 {
      ValueCountsSpec(rows[1..]);
      BumpSizes(ValueCounts(rows[1..]), rows[0].assignee);
      BumpKeys(ValueCounts(rows[1..]), rows[0].assignee);
      BumpDistinct(ValueCounts(rows[1..]), rows[0].assignee);
      forall n ensures HasBucket(ValueCounts(rows), n) <==> exists k :: 0 <= k < |rows| && rows[k].assignee == n {
        if exists k :: 0 <= k < |rows[1..]| && rows[1..][k].assignee == n {
          var k :| 0 <= k < |rows[1..]| && rows[1..][k].assignee == n;
          assert rows[k + 1].assignee == n;
        }
        if exists k :: 0 <= k < |rows| && rows[k].assignee == n {
          var k :| 0 <= k < |rows| && rows[k].assignee == n;
          if k > 0 { assert rows[1..][k - 1].assignee == n; }
        }
      }
    }
  }

  /** With distinct assignees, a bucket's size is what `SizeOf` reports for its assignee. */
  lemma {:induction false} SizeOfBucket(t: seq<Bucket>, i: nat)
    requires DistinctAssignees(t)
    requires i < |t|
    ensures SizeOf(t, t[i].assignee) == t[i].size
    decreases |t|
  {
    if i > 0 {
      var rest := t[1..];
      assert DistinctAssignees(rest) by {
        forall a, b | 0 <= a < b < |rest| ensures rest[a].assignee != rest[b].assignee {
          assert rest[a] == t[a + 1] && rest[b] == t[b + 1];
        }
      }
      SizeOfBucket(rest, i - 1);
      assert rest[i - 1] == t[i];
    }
  }

  /** `value_counts` has a single bucket exactly when the rows are not
      empty and all share one assignee. */
  lemma SingleBucketIff(rows: seq<Row>)
    ensures |ValueCounts(rows)| == 1 <==> |rows| > 0 && forall i :: 0 <= i < |rows| ==> rows[i].assignee == rows[0].assignee
  {
    var t := ValueCounts(rows);
    ValueCountsSpec(rows);
    if |rows| > 0 {
      var a := rows[0].assignee;
      assert HasBucket(t, a);
      if forall i :: 0 <= i < |rows| ==> rows[i].assignee == a {
        forall i | 0 <= i < |t| ensures t[i].assignee == a {
          assert HasBucket(t, t[i].assignee);
        }
        if |t| > 1 {
          assert false;
        }
      }
      if |t| == 1 {
        forall i | 0 <= i < |rows| ensures rows[i].assignee == a {
          assert HasBucket(t, rows[i].assignee);
        }
      }
    }
  }
}

=== FILE: issue.dfy ===
/** One tracker issue as the tracker delivers it, the flat row the metric
    engine works on, and the per-issue mapping between the two
    (app.py, `fetch_data`). */
module Issue {
  import opened Wrappers
  import Text

  /** Literal defaults a row falls back to when a tracker field is absent. */
  const NoSummary := "No Summary"
  const NoStatus := "No Status"
  const Unassigned := "Unassigned"

  const SecondsPerDay := 86400

  /** The name of the sprint custom field, read without a guard. */
  const SprintAttribute := "customfield_10020"

  /** The sprint custom field: not an attribute of the issue at all, a list
      of sprint names, or any other value (None included). */
  datatype SprintField = NoSprintAttribute | SprintList(names: seq<string>) | OtherSprintValue

  /** The fields of one tracker issue that the row mapping reads. Text
      fields are `None` when the tracker omits them; `subtasks` is `None`
      when the issue has no subtasks attribute at all. Timestamps are the
      tracker's raw ISO-like text. */
  datatype RawIssue = RawIssue(
    key: string,
    summary: Option<string>,
    statusName: Option<string>,
    assigneeName: Option<string>,
    created: string,
    updated: string,
    storyPoints: Option<real>,
    subtasks: Option<seq<string>>,
    description: Option<string>,
    sprints: SprintField)

  /** The flat row of the DataFrame: one per issue. `hasDescription` is the
      0/1 "Description" column. */
  datatype Row = Row(
    key: string,
    summary: string,
    status: string,
    assignee: string,
    created: string,
    updated: string,
    durationDays: int,
    storyPoints: Option<real>,
    subtasks: nat,
    hasDescription: bool,
    sprint: Option<string>)

  /** Why a batch cannot be turned into rows: a timestamp whose text before
      the first '.' does not parse, or an issue without an attribute the
      mapping reads unguarded. */
  datatype FetchError = BadTimestamp(text: string) | MissingAttribute(name: string)

  /** Python truthiness of an optional string: present and non-empty. */
  predicate Truthy(s: Option<string>) {
    s.Some? && s.value != ""
  }

  /** The field's text when it is truthy, the default otherwise. */
  function TextOr(s: Option<string>, default: string): (r: string)
    requires default != ""
    ensures r != ""
    ensures Truthy(s) ==> r == s.value
    ensures !Truthy(s) ==> r == default
  {
    if Truthy(s) then s.value else default
  }

  /** The sprint column: the first sprint's name when the field is a
      non-empty list, and nothing otherwise. */
  function SprintName(f: SprintField): (r: Option<string>)
    ensures r.Some? <==> f.SprintList? && |f.names| > 0
    ensures r.Some? ==> r.value == f.names[0]
  {
    match f
    case SprintList(names) => if |names| > 0 then Some(names[0]) else None
    case _ => None
  }

  /** The text handed to the timestamp parser: everything before the
      first '.', which drops fractional seconds and the zone suffix. */
  function TimestampText(raw: string): (t: string)
    ensures t <= raw && '.' !in t
    ensures |t| < |raw| ==> raw[|t|] == '.'
  {
    Text.BeforeFirst(raw, '.')
  }

  /** Whole days from `createdSecs` to `updatedSecs`, rounded towards minus
      infinity as Python's `timedelta.days` does. */
  function DurationDays(createdSecs: int, updatedSecs: int): (d: int)
    ensures d * SecondsPerDay <= updatedSecs - createdSecs < (d + 1) * SecondsPerDay
    ensures d < 0 <==> updatedSecs < createdSecs
    ensures d == 0 <==> 0 <= updatedSecs - createdSecs < SecondsPerDay
  {
    (updatedSecs - createdSecs) / SecondsPerDay
  }

  /** The row for one issue. `parse` is the fixed-pattern timestamp parser
      (seconds, or `None` when the text does not match the pattern); the
      created stamp is parsed before the updated one, and the sprint
      attribute, read last and without a guard, must exist. */
  function NormalizeIssue(raw: RawIssue, parse: string -> Option<int>): (r: Result<Row, FetchError>)
    ensures r.Success? <==>
              && parse(TimestampText(raw.created)).Some?
              && parse(TimestampText(raw.updated)).Some?
              && raw.sprints != NoSprintAttribute
    ensures r.Failure? ==>
              r.error == (if parse(TimestampText(raw.created)).None? then BadTimestamp(TimestampText(raw.created))
                else if parse(TimestampText(raw.updated)).None? then BadTimestamp(TimestampText(raw.updated))
                else MissingAttribute(SprintAttribute))
    ensures r.Success? ==>
              && r.value.key == raw.key
              && r.value.created == raw.created
              && r.value.updated == raw.updated
              && r.value.storyPoints == raw.storyPoints
    // every text column is filled in: absent text becomes a literal default
    ensures r.Success? ==>
              && r.value.summary != ""
              && (Truthy(raw.summary) ==> r.value.summary == raw.summary.value)
              && (!Truthy(raw.summary) ==> r.value.summary == NoSummary)
              && (raw.statusName.Some? ==> r.value.status == raw.statusName.value)
              && (raw.statusName.None? ==> r.value.status == NoStatus)
    // a row counts as assigned exactly when the issue names an assignee other than "Unassigned"
    ensures r.Success? ==>
              && (r.value.assignee != Unassigned <==> raw.assigneeName.Some? && raw.assigneeName.value != Unassigned)
              && (raw.assigneeName.Some? ==> r.value.assignee == raw.assigneeName.value)
    ensures r.Success? ==>
              && (r.value.subtasks > 0 <==> raw.subtasks.Some? && |raw.subtasks.value| > 0)
              && (raw.subtasks.Some? ==> r.value.subtasks == |raw.subtasks.value|)
              && (r.value.hasDescription <==> Truthy(raw.description))
              && (r.value.sprint.Some? <==> raw.sprints.SprintList? && |raw.sprints.names| > 0)
              && r.value.sprint == SprintName(raw.sprints)
    // the duration is negative exactly when the issue was updated before it was created
    ensures r.Success? ==>
              var c := parse(TimestampText(raw.created)).value;
              var u := parse(TimestampText(raw.updated)).value;
              && r.value.durationDays * SecondsPerDay <= u - c < (r.value.durationDays + 1) * SecondsPerDay
              && (r.value.durationDays < 0 <==> u < c)
  {
    var createdText := TimestampText(raw.created);
    var updatedText := TimestampText(raw.updated);
    match parse(createdText)
    case None => Failure(BadTimestamp(createdText))
    case Some(c) =>
      match parse(updatedText)
      case None => Failure(BadTimestamp(updatedText))
      case Some(u) =>
        if raw.sprints == NoSprintAttribute then Failure(MissingAttribute(SprintAttribute))
        else
          Success(Row(
            key := raw.key,
            summary := TextOr(raw.summary, NoSummary),
            status := if raw.statusName.Some? then raw.statusName.value else NoStatus,
            assignee := if raw.assigneeName.Some? then raw.assigneeName.value else Unassigned,
            created := raw.created,
            updated := raw.updated,
            durationDays := DurationDays(c, u),
            storyPoints := raw.storyPoints,
            subtasks := if raw.subtasks.Some? then |raw.subtasks.value| else 0,
            hasDescription := Truthy(raw.description),
            sprint := SprintName(raw.sprints)))
  }

  /** The rows of a whole batch, in order; the first issue that fails (a
      timestamp that does not parse, or a missing sprint attribute) aborts
      the batch with that issue's error. */
  function NormalizeBatch(raws: seq<RawIssue>, parse: string -> Option<int>): (r: Result<seq<Row>, FetchError>)
    ensures r.Success? ==> |r.value| == |raws|
    decreases |raws|
  {
    if |raws| == 0 then Success([])
    else
      match NormalizeIssue(raws[0], parse)
      case Failure(e) => Failure(e)
      case Success(row) =>
        match NormalizeBatch(raws[1..], parse)
        case Failure(e) => Failure(e)
        case Success(rest) => Success([row] + rest)
  }

  /** A batch succeeds exactly when every issue does, row i is then issue
      i's row, and a failed batch reports the error of the first issue
      that fails. */
  lemma {:induction false} NormalizeBatchSpec(raws: seq<RawIssue>, parse: string -> Option<int>)
    ensures var r := NormalizeBatch(raws, parse);
      && (r.Success? <==> forall i :: 0 <= i < |raws| ==> NormalizeIssue(raws[i], parse).Success?)
      && (r.Success? ==> forall i :: 0 <= i < |raws| ==> NormalizeIssue(raws[i], parse) == Success(r.value[i]))
      && (r.Failure? ==>
            exists k :: 0 <= k < |raws|
              && NormalizeIssue(raws[k], parse) == Failure(r.error)
              && forall i :: 0 <= i < k ==> NormalizeIssue(raws[i], parse).Success?)
    decreases |raws|
  {
    if |raws| > 0 {
      NormalizeBatchSpec(raws[1..], parse);
      var r := NormalizeBatch(raws, parse);
      var tail := NormalizeBatch(raws[1..], parse);
      if NormalizeIssue(raws[0], parse).Failure? {
        assert r.Failure? && NormalizeIssue(raws[0], parse) == Failure(r.error);
      } else if tail.Failure? {
        var k :| 0 <= k < |raws| - 1
              && NormalizeIssue(raws[1..][k], parse) == Failure(tail.error)
              && forall i :: 0 <= i < k ==> NormalizeIssue(raws[1..][i], parse).Success?;
        assert NormalizeIssue(raws[k + 1], parse) == Failure(r.error);
        forall i | 0 <= i < k + 1
          ensures NormalizeIssue(raws[i], parse).Success?
        {
          if i > 0 { assert raws[i] == raws[1..][i - 1]; }
        }
      } else {
        forall i | 0 <= i < |raws|
          ensures NormalizeIssue(raws[i], parse) == Success(r.value[i])
        {
          if i > 0 { assert raws[i] == raws[1..][i - 1]; }
        }
      }
    }
  }
}

=== FILE: metrics.dfy ===
/** The sprint-health metric engine (app.py, `calculate_metrics` and the
    `weights` table): ten submetrics over the rows, three category means,
    and the weighted health score. */
module Metrics {
  import opened Wrappers
  import opened Issue
  import opened Counting
  import opened Stats
  import Text

  /** `count / total * 100`, or `ifEmpty` when there are no rows. */
  function Percent(count: nat, total: nat, ifEmpty: real): (p: real)
    requires count <= total
    ensures total == 0 ==> p == ifEmpty
    ensures total > 0 ==> 0.0 <= p <= 100.0
    ensures total > 0 ==> (p == 100.0 <==> count == total)
    ensures total > 0 ==> (p == 0.0 <==> count == 0)
    ensures total > 0 ==> p * total as real == 100.0 * count as real
    ensures total > 0 ==> p == (100 * count) as real / total as real
  {
    if total > 0 then count as real / total as real * 100.0 else ifEmpty
  }

  /** The percentage of rows passing `c`; `ifEmpty` for an empty batch. It
      is 100 exactly when every row passes and 0 exactly when none does. */
  function Ratio(rows: seq<Row>, c: Check, ifEmpty: real): (p: real)
    ensures |rows| == 0 ==> p == ifEmpty
    ensures |rows| > 0 ==> 0.0 <= p <= 100.0
    ensures |rows| > 0 ==> (p == 100.0 <==> forall i :: 0 <= i < |rows| ==> Holds(c, rows[i]))
    ensures |rows| > 0 ==> (p == 0.0 <==> forall i :: 0 <= i < |rows| ==> !Holds(c, rows[i]))
    ensures |rows| > 0 ==> p == (100 * Count(rows, c)) as real / |rows| as real
  {
    if |rows| == 0 then ifEmpty
    else
      CountAllIff(rows, c);
      CountZeroIff(rows, c);
      Percent(Count(rows, c), |rows|, ifEmpty)
  }

  /** Some row's lower-cased summary is exactly `word`: the membership test
      `word in df["Summary"].str.lower().values`, which compares whole
      summaries, not substrings. */
  function SummaryIs(rows: seq<Row>, word: string): (b: bool)
    ensures b <==> exists i :: 0 <= i < |rows| && Text.LowerStr(rows[i].summary) == word
    decreases |rows|
  {
    if |rows| == 0 then false
    else if Text.LowerStr(rows[0].summary) == word then true
    else
      var b := SummaryIs(rows[1..], word);
      assert b ==> exists i :: 0 <= i < |rows| && Text.LowerStr(rows[i].summary) == word by {
        if b {
          var i :| 0 <= i < |rows[1..]| && Text.LowerStr(rows[1..][i].summary) == word;
          assert rows[i + 1] == rows[1..][i];
        }
      }
      assert (exists i :: 0 <= i < |rows| && Text.LowerStr(rows[i].summary) == word) ==> b by {
        if exists i :: 0 <= i < |rows| && Text.LowerStr(rows[i].summary) == word {
          var i :| 0 <= i < |rows| && Text.LowerStr(rows[i].summary) == word;
          assert i != 0;
          assert rows[1..][i - 1] == rows[i];
        }
      }
      b
  }

  /** A binary submetric: 100 when some summary is exactly `word`, else 0. */
  function Flag(rows: seq<Row>, word: string): (p: real)
    ensures p == 100.0 || p == 0.0
    ensures p == 100.0 <==> exists i :: 0 <= i < |rows| && Text.LowerStr(rows[i].summary) == word
  {
    if SummaryIs(rows, word) then 100.0 else 0.0
  }

  /** All rows belong to one assignee. */
  predicate OneAssignee(rows: seq<Row>) {
    forall i :: 0 <= i < |rows| ==> rows[i].assignee == rows[0].assignee
  }

  /** Every assignee that appears holds the same number of rows. */
  predicate EvenlySpread(rows: seq<Row>) {
    forall i, j :: 0 <= i < |rows| && 0 <= j < |rows| ==>
      Count(rows, AssignedTo(rows[i].assignee)) == Count(rows, AssignedTo(rows[j].assignee))
  }

  /** The assignee bucket sizes of `value_counts`. */
  function AssigneeCounts(rows: seq<Row>): seq<nat> {
    Sizes(ValueCounts(rows))
  }

  /** The bucket sizes add up to the number of rows. */
  lemma {:induction false} SumOfSizes(t: seq<Bucket>)
    ensures Sum(Sizes(t)) == TotalSize(t)
    decreases |t|
  {
    if |t| > 0 {
      assert Sizes(t)[1..] == Sizes(t[1..]);
      SumOfSizes(t[1..]);
    }
  }

  /** Equal bucket sizes mean exactly that every assignee holds the same
      number of rows; the buckets sum to the row count. */
  lemma AssigneeCountsFacts(rows: seq<Row>)
    ensures Sum(AssigneeCounts(rows)) == |rows|
    ensures AllEqual(AssigneeCounts(rows)) <==> EvenlySpread(rows)
    ensures |AssigneeCounts(rows)| < 2 <==> |rows| == 0 || OneAssignee(rows)
  {
    var t := ValueCounts(rows);
    var xs := AssigneeCounts(rows);
    ValueCountsSpec(rows);
    SumOfSizes(t);
    SingleBucketIff(rows);
    if |rows| > 0 {
      assert HasBucket(t, rows[0].assignee);
    }
    if AllEqual(xs) {
      forall i, j | 0 <= i < |rows| && 0 <= j < |rows|
        ensures Count(rows, AssignedTo(rows[i].assignee)) == Count(rows, AssignedTo(rows[j].assignee))
      {
        assert HasBucket(t, rows[i].assignee) && HasBucket(t, rows[j].assignee);
        var p :| 0 <= p < |t| && t[p].assignee == rows[i].assignee;
        var q :| 0 <= q < |t| && t[q].assignee == rows[j].assignee;
        SizeOfBucket(t, p);
        SizeOfBucket(t, q);
        assert xs[p] == xs[q];
      }
    }
    if EvenlySpread(rows) {
      forall p, q | 0 <= p < |xs| && 0 <= q < |xs| ensures xs[p] == xs[q] {
        assert HasBucket(t, t[p].assignee) && HasBucket(t, t[q].assignee);
        var i :| 0 <= i < |rows| && rows[i].assignee == t[p].assignee;
        var j :| 0 <= j < |rows| && rows[j].assignee == t[q].assignee;
        SizeOfBucket(t, p);
        SizeOfBucket(t, q);
      }
    }
  }

  /** 100 - s / n * 100 lies in [0, 100] when 0 <= s <= n, and is 100
      exactly when s is 0. */
  lemma SpreadArith(s: real, n: nat)
    requires n > 0
    ensures 0.0 <= s <= n as real ==> 0.0 <= 100.0 - s / n as real * 100.0 <= 100.0
    ensures 100.0 - s / n as real * 100.0 == 100.0 <==> s == 0.0
    ensures (100.0 - s / n as real * 100.0) * n as real == 100.0 * n as real - 100.0 * s
  {
    var nr := n as real;
    var q := s / nr;
    assert q * nr == s;
    if 0.0 <= s <= nr {
      CrossMultiply(s, nr, 0.0, 1.0);
      CrossMultiply(1.0, 1.0, s, nr);
    }
  }

  /** `100 - std / n * 100`: what is left of 100 after taking away the
      spread `s` as a percentage of the `n` rows. */
  function Spread(s: real, n: nat): (r: real)
    requires n > 0
    ensures r * n as real == 100.0 * n as real - 100.0 * s
    ensures 0.0 <= s <= n as real ==> 0.0 <= r <= 100.0
    ensures r == 100.0 <==> s == 0.0
  {
    SpreadArith(s, n);
    100.0 - s / n as real * 100.0
  }

  /** "Balanced Task Distribution (%)": 100 - std(assignee counts) / n * 100
      for more than one row, 100 otherwise. The std is NaN when a single
      assignee holds all of two or more rows. */
  function BalancedDistribution(rows: seq<Row>, sqrt: real -> real): (b: Value)
    ensures |rows| <= 1 ==> b == Num(100.0)
    ensures b == NaN <==> |rows| >= 2 && OneAssignee(rows)
    ensures IsSqrt(sqrt) && b.Num? ==> 0.0 <= b.v <= 100.0
    ensures IsSqrt(sqrt) && b.Num? ==> (b.v == 100.0 <==> EvenlySpread(rows))
    ensures |rows| >= 2 && !OneAssignee(rows) ==>
              && SampleStd(AssigneeCounts(rows), sqrt).Num?
              && b == Num(Spread(SampleStd(AssigneeCounts(rows), sqrt).v, |rows|))
  {
    AssigneeCountsFacts(rows);
    if |rows| > 1 then
      var sd := SampleStd(AssigneeCounts(rows), sqrt);
      if sd.NaN? then NaN
      else
        Num(Spread(sd.v, |rows|))
    else Num(100.0)
  }

  /** The four Engagement submetrics, in the order of the source's dict. */
  datatype Engagement = Engagement(assignedTasks: real, balanced: Value, comments: real, subtasks: real) {
    /** `sum(values) / len(values)`; NaN as soon as one submetric is NaN. */
    function Mean(): Value {
      match balanced
      case NaN => NaN
      case Num(b) => Num((assignedTasks + b + comments + subtasks) / 4.0)
    }
  }

  /** The three Task Quality submetrics. */
  datatype TaskQuality = TaskQuality(descriptions: real, subtasks: real, storyPoints: real) {
    function Mean(): real {
      (descriptions + subtasks + storyPoints) / 3.0
    }
  }

  /** The three Board Quality submetrics. */
  datatype BoardQuality = BoardQuality(backlogManaged: real, git: real, workflow: real) {
    function Mean(): real {
      (backlogManaged + git + workflow) / 3.0
    }
  }

  /** The Engagement submetrics of a batch (app.py lines 77-82). */
  function EngagementOf(rows: seq<Row>, sqrt: real -> real): (e: Engagement)
    ensures |rows| == 0 ==> e == Engagement(0.0, Num(100.0), 0.0, 0.0)
    ensures 0.0 <= e.assignedTasks <= 100.0 && 0.0 <= e.comments <= 100.0 && 0.0 <= e.subtasks <= 100.0
    ensures e.balanced == NaN <==> |rows| >= 2 && OneAssignee(rows)
    ensures e.Mean() == NaN <==> e.balanced == NaN
    ensures IsSqrt(sqrt) && e.Mean().Num? ==> 0.0 <= e.Mean().v <= 100.0
  {
    Engagement(
      assignedTasks := Ratio(rows, Assigned, 0.0),
      balanced := BalancedDistribution(rows, sqrt),
      comments := Ratio(rows, MentionsComment, 0.0),
      subtasks := Ratio(rows, HasSubtasks, 0.0))
  }

  /** The Task Quality submetrics of a batch (app.py lines 86-90); the
      subtasks share is computed again, exactly as for Engagement. */
  function TaskQualityOf(rows: seq<Row>): (t: TaskQuality)
    ensures |rows| == 0 ==> t == TaskQuality(0.0, 0.0, 0.0)
    ensures 0.0 <= t.descriptions <= 100.0 && 0.0 <= t.subtasks <= 100.0 && 0.0 <= t.storyPoints <= 100.0
    ensures 0.0 <= t.Mean() <= 100.0
    ensures |rows| > 0 ==> (t.Mean() == 100.0 <==>
              forall i :: 0 <= i < |rows| ==>
                Holds(HasDescription, rows[i]) && Holds(HasSubtasks, rows[i]) && Holds(HasStoryPoints, rows[i]))
  {
    TaskQuality(
      descriptions := Ratio(rows, HasDescription, 0.0),
      subtasks := Ratio(rows, HasSubtasks, 0.0),
      storyPoints := Ratio(rows, HasStoryPoints, 0.0))
  }

  /** The Board Quality submetrics of a batch (app.py lines 94-98). Only
      Backlog Managed has an empty-batch default, and it is 100. */
  function BoardQualityOf(rows: seq<Row>): (b: BoardQuality)
    ensures |rows| == 0 ==> b == BoardQuality(100.0, 0.0, 0.0)
    ensures 0.0 <= b.backlogManaged <= 100.0
    ensures (b.git == 100.0 || b.git == 0.0) && (b.git == 100.0 <==> SummaryIs(rows, "git"))
    ensures (b.workflow == 100.0 || b.workflow == 0.0) && (b.workflow == 100.0 <==> SummaryIs(rows, "workflow"))
    ensures 0.0 <= b.Mean() <= 100.0
  {
    BoardQuality(
      backlogManaged := Ratio(rows, NotBacklog, 100.0),
      git := Flag(rows, "git"),
      workflow := Flag(rows, "workflow"))
  }

  /** The `weights` table; the "Health Score" entry weighs nothing but is
      still part of the divisor. */
  datatype Weights = Weights(engagement: real, taskQuality: real, boardQuality: real, healthScore: real) {
    /** `sum(weights.values())` */
    function Total(): real {
      engagement + taskQuality + boardQuality + healthScore
    }
  }

  const ConfiguredWeights := Weights(1.5, 1.0, 0.5, 1.0)

  /** The configured weights divide by 4, although the three weights that
      multiply a category add up to 3; so even perfect categories reach
      only three quarters of 100. */
  lemma WeightsDivisor()
    ensures ConfiguredWeights.Total() == 4.0
    ensures ConfiguredWeights.engagement + ConfiguredWeights.taskQuality + ConfiguredWeights.boardQuality == 3.0
    ensures HealthScore(Num(100.0), 100.0, 100.0) == Num(75.0)
  {
  }

  /** The health score: the weighted category scores divided by the sum of
      all four weights, 4, not by the 3 the three used weights add up to. */
  function HealthScore(e: Value, t: real, b: real): (h: Value)
    ensures h == NaN <==> e == NaN
    ensures e.Num? ==> h.v == (1.5 * e.v + t + 0.5 * b) / 4.0
  {
    match e
    case NaN => NaN
    case Num(ev) =>
      var w := ConfiguredWeights;
      Num((w.engagement * ev + w.taskQuality * t + w.boardQuality * b) / w.Total())
  }

  /** The result of `calculate_metrics`. */
  datatype SprintMetrics = SprintMetrics(engagement: Value, taskQuality: real, boardQuality: real, health: Value)

  /** Indexing a column of the column-less DataFrame an empty batch gives. */
  datatype MetricsError = MissingColumn(column: string)

  /** `calculate_metrics(df, sprint_duration_weeks)`. An empty batch fails:
      the Git check indexes the "Summary" column, which a DataFrame built
      from no rows does not have. `sprintWeeks` is never read. */
  function CalculateMetrics(rows: seq<Row>, sprintWeeks: int, sqrt: real -> real): (r: Result<SprintMetrics, MetricsError>)
    ensures r.Failure? <==> |rows| == 0
    ensures r.Failure? ==> r.error == MissingColumn("Summary")
    ensures r.Success? ==> 0.0 <= r.value.taskQuality <= 100.0 && 0.0 <= r.value.boardQuality <= 100.0
    ensures r.Success? ==> (r.value.engagement == NaN <==> |rows| >= 2 && OneAssignee(rows))
    ensures r.Success? ==> r.value.health == HealthScore(r.value.engagement, r.value.taskQuality, r.value.boardQuality)
    ensures r.Success? ==> (r.value.health == NaN <==> r.value.engagement == NaN)
    ensures r.Success? && IsSqrt(sqrt) && r.value.engagement.Num? ==>
              && 0.0 <= r.value.engagement.v <= 100.0
              && r.value.health.Num?
              && 0.0 <= r.value.health.v <= 75.0
  {
    if |rows| == 0 then Failure(MissingColumn("Summary"))
    else
      var e := EngagementOf(rows, sqrt).Mean();
      var t := TaskQualityOf(rows).Mean();
      var b := BoardQualityOf(rows).Mean();
      HealthBounds(e, t, b);
      Success(SprintMetrics(e, t, b, HealthScore(e, t, b)))
  }

  /** With every category score in [0, 100] the health score lies in
      [0, 75]; 75 is reached when all three are 100. */
  lemma HealthBounds(e: Value, t: real, b: real)
    ensures e.Num? && 0.0 <= e.v <= 100.0 && 0.0 <= t <= 100.0 && 0.0 <= b <= 100.0 ==>
              0.0 <= HealthScore(e, t, b).v <= 75.0
    ensures e == Num(100.0) && t == 100.0 && b == 100.0 ==> HealthScore(e, t, b) == Num(75.0)
  {
  }

  /** On an empty batch every share defaults to 0 except Backlog Managed
      and Balanced Distribution, which default to 100; the batch as a whole
      still fails. */
  lemma EmptyBatchDefaults(sqrt: real -> real)
    ensures EngagementOf([], sqrt) == Engagement(0.0, Num(100.0), 0.0, 0.0)
    ensures TaskQualityOf([]) == TaskQuality(0.0, 0.0, 0.0)
    ensures BoardQualityOf([]).backlogManaged == 100.0
    ensures CalculateMetrics([], 2, sqrt) == Failure(MissingColumn("Summary"))
  {
  }

  /** The category scores are the plain means of their submetrics, and
      the subtasks share enters Engagement and Task Quality with one value. */
  lemma CategoryMeans(rows: seq<Row>, sprintWeeks: int, sqrt: real -> real)
    requires |rows| > 0
    ensures var m := CalculateMetrics(rows, sprintWeeks, sqrt).value;
      && m.taskQuality == (Ratio(rows, HasDescription, 0.0) + Ratio(rows, HasSubtasks, 0.0)
                           + Ratio(rows, HasStoryPoints, 0.0)) / 3.0
      && m.boardQuality == (Ratio(rows, NotBacklog, 100.0) + Flag(rows, "git") + Flag(rows, "workflow")) / 3.0
      && (m.engagement.Num? ==>
            m.engagement.v == (Ratio(rows, Assigned, 0.0) + BalancedDistribution(rows, sqrt).v
                               + Ratio(rows, MentionsComment, 0.0) + Ratio(rows, HasSubtasks, 0.0)) / 4.0)
    ensures EngagementOf(rows, sqrt).subtasks == TaskQualityOf(rows).subtasks
  {
  }

  /** The `sprint_duration_weeks` argument has no effect on the result. */
  lemma SprintWeeksUnused(rows: seq<Row>, w1: int, w2: int, sqrt: real -> real)
    ensures CalculateMetrics(rows, w1, sqrt) == CalculateMetrics(rows, w2, sqrt)
  {
  }

  /** Comparing two fractions with positive denominators by cross-multiplying. */
  lemma CrossMultiply(p: real, q: real, r: real, s: real)
    requires q > 0.0 && s > 0.0
    ensures r / s <= p / q <==> r * q <= p * s
    ensures r / s < p / q <==> r * q < p * s
  {
    var u, v := p / q, r / s;
    assert u * q == p && v * s == r;
    assert p * s - r * q == (u - v) * (q * s);
    assert q * s > 0.0;
  }

  /** One more passing row out of one more row: the share of k out of n
      never falls, and rises exactly when k < n. */
  lemma FractionGrows(k: nat, n: nat)
    requires 0 < n && k <= n
    ensures (k + 1) as real / (n + 1) as real * 100.0 >= k as real / n as real * 100.0
    ensures (k + 1) as real / (n + 1) as real * 100.0 > k as real / n as real * 100.0 <==> k < n
  {
    var a, b := k as real, n as real;
    CrossMultiply(a + 1.0, b + 1.0, a, b);
    assert a * (b + 1.0) == a * b + a;
    assert (a + 1.0) * b == a * b + b;
  }

  /** Adding a row that passes `c` to a non-empty batch never lowers the
      share of `c`, and raises it exactly when some row did not pass. */
  lemma RatioGrowsWithPassingRow(rows: seq<Row>, row: Row, c: Check, ifEmpty: real)
    requires |rows| > 0 && Holds(c, row)
    ensures Ratio(rows + [row], c, ifEmpty) >= Ratio(rows, c, ifEmpty)
    ensures (Ratio(rows + [row], c, ifEmpty) > Ratio(rows, c, ifEmpty)) <==>
              (exists i :: 0 <= i < |rows| && !Holds(c, rows[i]))
  {
    CountAppend(rows, [row], c);
    CountAllIff(rows, c);
    assert Count([row], c) == 1;
    FractionGrows(Count(rows, c), |rows|);
  }
}

=== FILE: scenarios.dfy ===
/** Whole-batch examples worked through the model, each stating the exact
    numbers `calculate_metrics` produces for it. */
module Scenarios {
  import opened Wrappers
  import opened Issue
  import opened Counting
  import opened Stats
  import opened Metrics
  import Severity
  import Text

  /** Alice's issue, with a description and two subtasks. */
  function AliceIssue(): Row {
    Row("S-1", "Login", "To Do", "Alice", "", "", 0, None, 2, true, None)
  }

  /** An unassigned issue with neither. */
  function NobodysIssue(): Row {
    Row("S-2", "Docs", "To Do", Unassigned, "", "", 0, None, 0, false, None)
  }

  /** The per-row tests on the two-issue batch. */
  lemma TwoIssueCounts()
    ensures var rows := [AliceIssue(), NobodysIssue()];
      && Count(rows, Assigned) == 1 && Count(rows, MentionsComment) == 0
      && Count(rows, HasSubtasks) == 1 && Count(rows, HasDescription) == 1
      && Count(rows, HasStoryPoints) == 0 && Count(rows, NotBacklog) == 2
      && !SummaryIs(rows, "git") && !SummaryIs(rows, "workflow")
  {
    assert [AliceIssue(), NobodysIssue()][1..] == [NobodysIssue()];
  }

  /** The two assignees hold one issue each, so the work is evenly spread. */
  lemma TwoIssueBalanced(sqrt: real -> real)
    requires IsSqrt(sqrt)
    ensures BalancedDistribution([AliceIssue(), NobodysIssue()], sqrt) == Num(100.0)
  {
    var rows := [AliceIssue(), NobodysIssue()];
    assert rows[1..] == [NobodysIssue()];
    assert Count(rows, AssignedTo("Alice")) == 1;
    assert Count(rows, AssignedTo(Unassigned)) == 1;
    assert EvenlySpread(rows);
  }

  /** The two-issue batch's Engagement: half assigned, balanced, no
      comments, half with subtasks. */
  lemma TwoIssueEngagement(sqrt: real -> real)
    requires IsSqrt(sqrt)
    ensures EngagementOf([AliceIssue(), NobodysIssue()], sqrt) == Engagement(50.0, Num(100.0), 0.0, 50.0)
    ensures EngagementOf([AliceIssue(), NobodysIssue()], sqrt).Mean() == Num(50.0)
  {
    TwoIssueBalanced(sqrt);
    EngagementOfBalancedPair(sqrt);
  }

  /** The two-issue batch's Engagement once its distribution is known to
      be balanced. */
  lemma EngagementOfBalancedPair(sqrt: real -> real)
    requires BalancedDistribution([AliceIssue(), NobodysIssue()], sqrt) == Num(100.0)
    ensures EngagementOf([AliceIssue(), NobodysIssue()], sqrt) == Engagement(50.0, Num(100.0), 0.0, 50.0)
    ensures EngagementOf([AliceIssue(), NobodysIssue()], sqrt).Mean() == Num(50.0)
  {
    var rows := [AliceIssue(), NobodysIssue()];
    TwoIssueCounts();
    assert Ratio(rows, Assigned, 0.0) == 50.0;
    assert Ratio(rows, MentionsComment, 0.0) == 0.0;
    assert Ratio(rows, HasSubtasks, 0.0) == 50.0;
    assert Engagement(50.0, Num(100.0), 0.0, 50.0).Mean() == Num(50.0);
  }

  /** The two-issue batch's Task Quality: half described, half with
      subtasks, none estimated. */
  lemma TwoIssueTaskQuality()
    ensures TaskQualityOf([AliceIssue(), NobodysIssue()]) == TaskQuality(50.0, 50.0, 0.0)
    ensures TaskQualityOf([AliceIssue(), NobodysIssue()]).Mean() == 100.0 / 3.0
  {
    TwoIssueCounts();
  }

  /** The two-issue batch's Board Quality: nothing in the backlog, no Git
      or Workflow summary. */
  lemma TwoIssueBoardQuality()
    ensures BoardQualityOf([AliceIssue(), NobodysIssue()]) == BoardQuality(100.0, 0.0, 0.0)
    ensures BoardQualityOf([AliceIssue(), NobodysIssue()]).Mean() == 100.0 / 3.0
  {
    TwoIssueCounts();
  }

  /** The two-issue batch's result, before the health arithmetic. */
  lemma TwoIssueMetrics(sqrt: real -> real)
    requires IsSqrt(sqrt)
    ensures CalculateMetrics([AliceIssue(), NobodysIssue()], 2, sqrt)
              == Success(SprintMetrics(Num(50.0), 100.0 / 3.0, 100.0 / 3.0,
                                       HealthScore(Num(50.0), 100.0 / 3.0, 100.0 / 3.0)))
  {
    TwoIssueEngagement(sqrt);
    TwoIssueTaskQuality();
    TwoIssueBoardQuality();
  }

  /** Two issues: Alice's with a description and two subtasks, and an
      unassigned one with neither; both "To Do", no story points, and no
      summary mentions git, workflow or comments. The two assignee buckets
      are equal, so the distribution is balanced; Health is
      (1.5 * 50 + 100/3 + 0.5 * 100/3) / 4 = 31.25. */
  lemma TwoIssueBatch(sqrt: real -> real)
    requires IsSqrt(sqrt)
    ensures CalculateMetrics([AliceIssue(), NobodysIssue()], 2, sqrt)
              == Success(SprintMetrics(Num(50.0), 100.0 / 3.0, 100.0 / 3.0, Num(31.25)))
  {
    TwoIssueMetrics(sqrt);
    TwoIssueHealth();
  }

  /** The weighted health of the two-issue batch's category scores. */
  lemma TwoIssueHealth()
    ensures HealthScore(Num(50.0), 100.0 / 3.0, 100.0 / 3.0) == Num(31.25)
  {
  }

  /** The issue of the one-issue scenario below. */
  function BacklogIssue(): Row {
    Row("S-1", "Fix git workflow comment handling", "Backlog", Unassigned, "", "", 0, None, 0, false, None)
  }

  /** The issue mentions comments, is no whole-summary git or workflow
      entry, and sits in the backlog. */
  lemma BacklogRowChecks()
    ensures Holds(MentionsComment, BacklogIssue()) && !Holds(NotBacklog, BacklogIssue())
    ensures !SummaryIs([BacklogIssue()], "git") && !SummaryIs([BacklogIssue()], "workflow")
  {
    var lowered := Text.LowerStr(BacklogIssue().summary);
    assert lowered[17..24] == "comment";
    assert Text.OccursAt(lowered, "comment", 17);
    Text.ContainsSpec(lowered, "comment");
    assert Text.LowerStr("Backlog") == "backlog";
    assert |lowered| == 33;
  }

  /** Engagement of the one-issue scenario: unassigned, one row so
      balanced, mentions comments, no subtasks. */
  lemma BacklogEngagement(sqrt: real -> real)
    ensures EngagementOf([BacklogIssue()], sqrt) == Engagement(0.0, Num(100.0), 100.0, 0.0)
    ensures EngagementOf([BacklogIssue()], sqrt).Mean() == Num(50.0)
  {
    BacklogRowChecks();
    assert Count([BacklogIssue()], MentionsComment) == 1;
  }

  /** Task Quality of the one-issue scenario: nothing is filled in. */
  lemma BacklogTaskQuality()
    ensures TaskQualityOf([BacklogIssue()]) == TaskQuality(0.0, 0.0, 0.0)
    ensures TaskQualityOf([BacklogIssue()]).Mean() == 0.0
  {
  }

  /** Board Quality of the one-issue scenario: the issue sits in the
      backlog, and no whole summary is "git" or "workflow". */
  lemma BacklogBoardQuality()
    ensures BoardQualityOf([BacklogIssue()]) == BoardQuality(0.0, 0.0, 0.0)
    ensures BoardQualityOf([BacklogIssue()]).Mean() == 0.0
  {
    BacklogRowChecks();
    assert Count([BacklogIssue()], NotBacklog) == 0;
  }

  /** The one-issue scenario's result, before the health arithmetic. */
  lemma BacklogMetrics(sqrt: real -> real)
    ensures CalculateMetrics([BacklogIssue()], 2, sqrt)
              == Success(SprintMetrics(Num(50.0), 0.0, 0.0, HealthScore(Num(50.0), 0.0, 0.0)))
  {
    BacklogEngagement(sqrt);
    BacklogTaskQuality();
    BacklogBoardQuality();
  }

  /** The weighted health of the one-issue scenario's category scores. */
  lemma HealthOfBacklogIssue()
    ensures HealthScore(Num(50.0), 0.0, 0.0) == Num(18.75)
  {
  }

  /** One unassigned "Backlog" issue titled "Fix git workflow comment
      handling". Comments counts it (substring), Git and Workflow do not
      (whole-summary match), and Backlog Managed drops to 0; Health is
      1.5 * 50 / 4 = 18.75, which `get_color` shows red. */
  lemma OneBacklogIssue(sqrt: real -> real)
    ensures CalculateMetrics([BacklogIssue()], 2, sqrt) == Success(SprintMetrics(Num(50.0), 0.0, 0.0, Num(18.75)))
    ensures Severity.GetColor(Num(18.75)) == Severity.Red
  {
    BacklogMetrics(sqrt);
    HealthOfBacklogIssue();
  }

  /** Two issues held by one assignee: the standard deviation of a single
      bucket is NaN, which spreads to Engagement and Health but not to the
      other two categories, and `get_color` draws a NaN green. */
  lemma SingleAssigneeIsNaN(sqrt: real -> real)
    ensures var r := CalculateMetrics([TaskOf("Alice"), TaskOf("Alice")], 2, sqrt);
            && r.Success?
            && r.value.engagement == NaN && r.value.health == NaN
            && r.value.taskQuality == 0.0
            && Severity.GetColor(r.value.health) == Severity.Green
  {
    var rows := [TaskOf("Alice"), TaskOf("Alice")];
    assert OneAssignee(rows);
    assert TaskQualityOf(rows) == TaskQuality(0.0, 0.0, 0.0) by {
      assert rows[1..] == [TaskOf("Alice")];
      assert Count(rows, HasDescription) == 0;
      assert Count(rows, HasSubtasks) == 0;
      assert Count(rows, HasStoryPoints) == 0;
    }
  }

  /** A row held by `assignee`, with nothing else filled in. */
  function TaskOf(assignee: string): Row {
    Row("S", "Task", "To Do", assignee, "", "", 0, None, 0, false, None)
  }

  /** Six issues spread 1, 2, 3 over three people. */
  function UnevenRows(): seq<Row> {
    [TaskOf("A"), TaskOf("B"), TaskOf("B"), TaskOf("C"), TaskOf("C"), TaskOf("C")]
  }

  /** The `value_counts` sizes of the uneven batch. */
  lemma UnevenCounts()
    ensures AssigneeCounts(UnevenRows()) == [3, 2, 1]
  {
    var rows := UnevenRows();
    assert ValueCounts(rows[5..]) == [Bucket("C", 1)];
    assert rows[4..][1..] == rows[5..];
    assert ValueCounts(rows[4..]) == [Bucket("C", 2)];
    assert rows[3..][1..] == rows[4..];
    assert ValueCounts(rows[3..]) == [Bucket("C", 3)];
    assert rows[2..][1..] == rows[3..];
    assert [Bucket("C", 3)][1..] == [];
    assert Bump([Bucket("C", 3)], "B") == [Bucket("C", 3)] + Bump([], "B");
    assert ValueCounts(rows[2..]) == [Bucket("C", 3), Bucket("B", 1)];
    assert rows[1..][1..] == rows[2..];
    assert [Bucket("C", 3), Bucket("B", 1)][1..] == [Bucket("B", 1)];
    assert Bump([Bucket("C", 3), Bucket("B", 1)], "B") == [Bucket("C", 3)] + Bump([Bucket("B", 1)], "B");
    assert ValueCounts(rows[1..]) == [Bucket("C", 3), Bucket("B", 2)];
    assert [Bucket("C", 3), Bucket("B", 2)][1..] == [Bucket("B", 2)];
    assert Bump([Bucket("B", 2)], "A") == [Bucket("B", 2)] + Bump([], "A");
    assert ValueCounts(rows) == [Bucket("C", 3), Bucket("B", 2), Bucket("A", 1)];
  }

  /** The sizes 3, 2, 1 have sample standard deviation 1. */
  lemma StdOfThreeTwoOne(sqrt: real -> real)
    requires IsSqrt(sqrt)
    ensures SampleStd([3, 2, 1], sqrt) == Num(1.0)
  {
    assert [3, 2, 1][1..] == [2, 1] && [2, 1][1..] == [1];
    assert Sum([3, 2, 1]) == 6;
    assert ScaledDev([3, 2, 1], 3, 6) == 18;
    assert SampleVariance([3, 2, 1]) == Some(1.0);
    assert sqrt((1 * 1) as real) == 1.0;
  }

  /** The uneven batch's bucket sizes have sample standard deviation 1, so
      Balanced Distribution is 100 - 1 / 6 * 100 = 250/3. Dividing by k
      instead of k - 1 would give a deviation of the root of 2/3. */
  lemma UnevenSpread(sqrt: real -> real)
    requires IsSqrt(sqrt)
    ensures BalancedDistribution(UnevenRows(), sqrt) == Num(250.0 / 3.0)
  {
    UnevenCounts();
    StdOfThreeTwoOne(sqrt);
    assert |UnevenRows()| == 6;
    assert 100.0 - 1.0 / 6.0 * 100.0 == 250.0 / 3.0;
  }

  /** Eight issues, three of them in the backlog, none titled exactly
      "git" or "workflow": Board Quality is 62.5 / 3, about 20.83, which
      falls in the gap `get_color` leaves between 20 and 21 and is drawn
      green, while a Board Quality of 21 would be orange. */
  lemma BoardQualityInGap(rows: seq<Row>)
    requires |rows| == 8 && Count(rows, NotBacklog) == 5
    requires !SummaryIs(rows, "git") && !SummaryIs(rows, "workflow")
    ensures BoardQualityOf(rows).Mean() == 62.5 / 3.0
    ensures 20.0 < BoardQualityOf(rows).Mean() < 21.0
    ensures Severity.GetColor(Num(BoardQualityOf(rows).Mean())) == Severity.Green
    ensures Severity.GetColor(Num(21.0)) == Severity.Orange
  {
    assert BoardQualityOf(rows).backlogManaged == 62.5;
  }

  /** A row with the given summary and otherwise default fields. */
  function RowWithSummary(summary: string): Row {
    Row("K-1", summary, "To Do", Unassigned, "", "", 0, None, 0, false, None)
  }

  /** The Git check compares whole summaries: "Set up git" does not count,
      "GIT" does. The Comments check looks for a substring instead. */
  lemma GitIsWholeSummaryMatch()
    ensures Flag([RowWithSummary("Set up git")], "git") == 0.0
    ensures Flag([RowWithSummary("GIT")], "git") == 100.0
    ensures Ratio([RowWithSummary("Reply to Comments")], MentionsComment, 0.0) == 100.0
  {
    var lowered := Text.LowerStr("GIT");
    assert lowered == "git";
    var comment := Text.LowerStr("Reply to Comments");
    assert comment[9..16] == "comment";
    Text.ContainsSpec(comment, "comment");
    assert Text.OccursAt(comment, "comment", 9);
  }

  /** A row lowers Backlog Managed only when its lower-cased status is
      exactly "backlog": "Backlog" does, "To Do" and "In Backlog" do not. */
  lemma BacklogIsExactStatus(r: Row)
    ensures !Holds(NotBacklog, r.(status := "Backlog"))
    ensures Holds(NotBacklog, r.(status := "To Do"))
    ensures Holds(NotBacklog, r.(status := "In Backlog"))
  {
    assert Text.LowerStr("Backlog") == "backlog";
  }
}

=== FILE: severity.dfy ===
/** The colour a metric gauge is drawn in (app.py, `get_color`). */
module Severity {
  import opened Stats

  datatype Color = Red | Orange | Green

  /** The hex code `get_color` returns for each colour. */
  function Hex(c: Color): string {
    match c
    case Red => "#FF0000"
    case Orange => "#FFA500"
    case Green => "#4CAF50"
  }

  /** Colours from worst to best. */
  function Rank(c: Color): nat {
    match c
    case Red => 0
    case Orange => 1
    case Green => 2
  }

  /** `get_color(value)` as written: at most 20 is red, 21 to 35 is orange,
      and everything else is green, including the values strictly between
      20 and 21 and NaN (every comparison with NaN is false). */
  function GetColor(x: Value): (c: Color)
    ensures x == NaN ==> c == Green
    ensures x.Num? ==> (c == Red <==> x.v <= 20.0)
    ensures x.Num? ==> (c == Orange <==> 21.0 <= x.v <= 35.0)
    ensures x.Num? ==> (c == Green <==> (20.0 < x.v < 21.0 || 35.0 < x.v))
  {
    match x
    case NaN => Green
    case Num(v) =>
      if v <= 20.0 then Red
      else if 21.0 <= v <= 35.0 then Orange
      else Green
  }

  /** As written, a larger value can get a worse colour: 20.5 is drawn
      "#4CAF50" (green) while 21 is drawn "#FFA500" (orange). */
  lemma GetColorNotMonotone()
    ensures Hex(GetColor(Num(20.5))) == "#4CAF50"
    ensures Hex(GetColor(Num(21.0))) == "#FFA500"
    ensures Rank(GetColor(Num(20.5))) > Rank(GetColor(Num(21.0)))
  {
  }

  /** The evidently intended thresholds: at most 20 red, above 20 and at
      most 35 orange, above 35 green. NaN stays green as in the source. */
  function IntendedColor(x: Value): (c: Color)
    ensures x == NaN ==> c == Green
    ensures x.Num? ==> (c == Red <==> x.v <= 20.0)
    ensures x.Num? ==> (c == Orange <==> 20.0 < x.v <= 35.0)
    ensures x.Num? ==> (c == Green <==> 35.0 < x.v)
  {
    match x
    case NaN => Green
    case Num(v) =>
      if v <= 20.0 then Red
      else if v <= 35.0 then Orange
      else Green
  }

  /** The intended colour never gets worse as the value grows, and it
      agrees with `get_color` everywhere outside the open gap (20, 21). */
  lemma IntendedColorMonotone(x: real, y: real)
    requires x <= y
    ensures Rank(IntendedColor(Num(x))) <= Rank(IntendedColor(Num(y)))
    ensures !(20.0 < x < 21.0) ==> IntendedColor(Num(x)) == GetColor(Num(x))
  {
  }
}

=== FILE: stats.dfy ===
/** The arithmetic behind pandas' `Series.std()` on a column of counts:
    sums, the sample variance (one degree of freedom removed) and the
    standard deviation as the square root of the variance.

    For counts x_1..x_k with total S the sample variance is
      sum_i (x_i - S/k)^2 / (k - 1)  =  sum_i (k x_i - S)^2 / (k^2 (k - 1)),
    and the model uses the right-hand form, whose numerator is an integer. */
module Stats {
  import opened Wrappers

  /** A pandas float: a number, or NaN (what `std()` of a single value gives). */
  datatype Value = Num(v: real) | NaN

  function Sum(xs: seq<nat>): nat
    decreases |xs|
  {
    if |xs| == 0 then 0 else xs[0] + Sum(xs[1..])
  }

  function SumSq(xs: seq<nat>): nat
    decreases |xs|
  {
    if |xs| == 0 then 0 else xs[0] * xs[0] + SumSq(xs[1..])
  }

  predicate AllEqual(xs: seq<nat>) {
    forall i, j :: 0 <= i < |xs| && 0 <= j < |xs| ==> xs[i] == xs[j]
  }

  lemma SquareFacts(d: int)
    ensures d * d >= 0
    ensures d != 0 ==> d * d > 0
  {
  }

  /** The sum of (k x - s)^2 over the values x of `xs`: with k = |xs| and
      s = Sum(xs) this is k^2 times the squared deviations from the mean. */
  function ScaledDev(xs: seq<nat>, k: int, s: int): (d: nat)
    decreases |xs|
  {
    if |xs| == 0 then 0
    else
      var e := k * xs[0] - s;
      SquareFacts(e);
      e * e + ScaledDev(xs[1..], k, s)
  }

  /** One step of expanding a sum of squared differences. */
  lemma ExpandStep(x: int, k: int, s: int, ss: int, t: int, n: int)
    ensures (k * x - s) * (k * x - s) + (k * k * ss - 2 * k * s * t + n * s * s)
         == k * k * (x * x + ss) - 2 * k * s * (x + t) + (n + 1) * s * s
  {
  }

  /** Expanding the squares: ScaledDev = k^2 SumSq - 2 k s Sum + n s^2. */
  lemma {:induction false} ScaledDevExpand(xs: seq<nat>, k: int, s: int)
    ensures ScaledDev(xs, k, s) == k * k * SumSq(xs) - 2 * k * s * Sum(xs) + |xs| * s * s
    decreases |xs|
  {
    if |xs| > 0 {
      var rest := xs[1..];
      ScaledDevExpand(rest, k, s);
      ExpandStep(xs[0], k, s, SumSq(rest), Sum(rest), |rest|);
    }
  }

  /** One step of bounding a sum of squares by the square of the sum. */
  lemma SquareSumStep(x: nat, t: nat, ss: nat)
    requires ss <= t * t
    ensures x * x + ss <= (x + t) * (x + t)
  {
  }

  /** The sum of squares of naturals is at most the square of their sum. */
  lemma {:induction false} SumSqBound(xs: seq<nat>)
    ensures SumSq(xs) <= Sum(xs) * Sum(xs)
    decreases |xs|
  {
    if |xs| > 0 {
      SumSqBound(xs[1..]);
      SquareSumStep(xs[0], Sum(xs[1..]), SumSq(xs[1..]));
    }
  }

  lemma DevBoundArith(k: nat, s: nat, ss: nat, d: int)
    requires ss <= s * s
    requires d == k * k * ss - 2 * k * s * s + k * s * s
    ensures d <= k * k * (s * s)
  {
    assert d == k * k * ss - k * (s * s);
    assert k * k * ss <= k * k * (s * s) by {
      assert k * k * (s * s) - k * k * ss == k * k * (s * s - ss);
    }
    assert 0 <= k * (s * s);
  }

  /** At the mean, the scaled deviations are at most k^2 S^2. */
  lemma ScaledDevBound(xs: seq<nat>)
    ensures ScaledDev(xs, |xs|, Sum(xs)) <= |xs| * |xs| * (Sum(xs) * Sum(xs))
  {
    ScaledDevExpand(xs, |xs|, Sum(xs));
    SumSqBound(xs);
    DevBoundArith(|xs|, Sum(xs), SumSq(xs), ScaledDev(xs, |xs|, Sum(xs)));
  }

  /** The scaled deviations vanish exactly when k x = s for every value x. */
  lemma {:induction false} ScaledDevZeroIff(xs: seq<nat>, k: int, s: int)
    ensures ScaledDev(xs, k, s) == 0 <==> forall i :: 0 <= i < |xs| ==> k * xs[i] == s
    decreases |xs|
  {
    if |xs| > 0 {
      ScaledDevZeroIff(xs[1..], k, s);
      SquareFacts(k * xs[0] - s);
      if forall i :: 0 <= i < |xs| ==> k * xs[i] == s {
        forall i | 0 <= i < |xs| - 1 ensures k * xs[1..][i] == s {
          assert xs[1..][i] == xs[i + 1];
        }
      }
      if ScaledDev(xs, k, s) == 0 {
        forall i | 0 <= i < |xs| ensures k * xs[i] == s {
          if i > 0 { assert xs[i] == xs[1..][i - 1]; }
        }
      }
    }
  }

  /** A sequence of one repeated value sums to length times that value. */
  lemma {:induction false} SumConst(xs: seq<nat>, c: nat)
    requires forall i :: 0 <= i < |xs| ==> xs[i] == c
    ensures Sum(xs) == |xs| * c
    decreases |xs|
  {
    if |xs| > 0 {
      SumConst(xs[1..], c);
    }
  }

  lemma CancelFactor(k: int, a: int, b: int)
    requires k > 0 && k * a == k * b
    ensures a == b
  {
  }

  /** All values are equal exactly when each one is the mean, i.e. k x = S. */
  lemma AllEqualIffAtMean(xs: seq<nat>)
    ensures AllEqual(xs) <==> forall i :: 0 <= i < |xs| ==> |xs| * xs[i] == Sum(xs)
  {
    if |xs| > 0 && AllEqual(xs) {
      SumConst(xs, xs[0]);
    }
    if |xs| > 0 && forall i :: 0 <= i < |xs| ==> |xs| * xs[i] == Sum(xs) {
      forall i, j | 0 <= i < |xs| && 0 <= j < |xs| ensures xs[i] == xs[j] {
        CancelFactor(|xs|, xs[i], xs[j]);
      }
    }
  }

  /** A quotient of naturals bounded through its numerator. */
  lemma QuotientBound(d: nat, m: nat, b: nat)
    requires m > 0 && d <= m * b
    ensures 0.0 <= d as real / m as real <= b as real
    ensures d as real / m as real == 0.0 <==> d == 0
  {
    assert (m * b) as real == m as real * b as real;
  }

  /** k^2 (k - 1) is at least k^2 once k >= 2. */
  lemma DenominatorBound(k: nat, b: nat, d: nat)
    requires k >= 2 && d <= k * k * b
    ensures d <= k * k * (k - 1) * b
  {
    assert k * k * (k - 1) * b == k * k * b * (k - 1);
    assert k * k * b <= k * k * b * (k - 1);
  }

  /** The denominator of the sample variance of k values: k^2 (k - 1). */
  function VarianceDenominator(k: nat): (m: nat)
    requires k >= 2
    ensures m > 0
  {
    k * k * (k - 1)
  }

  /** The sample variance (`ddof=1`): undefined for fewer than two values,
      never negative, at most the square of the values' total, and zero
      exactly when all values are equal. */
  function SampleVariance(xs: seq<nat>): (v: Option<real>)
    ensures v.Some? <==> |xs| >= 2
    ensures v.Some? ==> 0.0 <= v.value <= (Sum(xs) * Sum(xs)) as real
    ensures v.Some? ==> (v.value == 0.0 <==> AllEqual(xs))
  {
    if |xs| < 2 then None
    else
      VarianceFacts(xs);
      Some(ScaledDev(xs, |xs|, Sum(xs)) as real / VarianceDenominator(|xs|) as real)
  }

  lemma VarianceFacts(xs: seq<nat>)
    requires |xs| >= 2
    ensures var v := ScaledDev(xs, |xs|, Sum(xs)) as real / VarianceDenominator(|xs|) as real;
      && 0.0 <= v <= (Sum(xs) * Sum(xs)) as real
      && (v == 0.0 <==> AllEqual(xs))
  {
    var k, s := |xs|, Sum(xs);
    var d := ScaledDev(xs, k, s);
    ScaledDevBound(xs);
    ScaledDevZeroIff(xs, k, s);
    AllEqualIffAtMean(xs);
    DenominatorBound(k, s * s, d);
    QuotientBound(d, VarianceDenominator(k), s * s);
  }

  /** The mean of a non-empty sequence of counts. */
  function Mean(xs: seq<nat>): real
    requires |xs| > 0
  {
    Sum(xs) as real / |xs| as real
  }

  /** The sum of the squared deviations of `xs` from `m`, over the reals:
      the textbook numerator of a variance. */
  function SquaredDeviations(xs: seq<nat>, m: real): real
    decreases |xs|
  {
    if |xs| == 0 then 0.0 else (xs[0] as real - m) * (xs[0] as real - m) + SquaredDeviations(xs[1..], m)
  }

  /** One scaled square: (k x - s)^2 = k^2 (x - s/k)^2. */
  lemma ScaleSquare(x: nat, k: int, s: int)
    requires k > 0
    ensures ((k * x - s) * (k * x - s)) as real
         == (k * k) as real * ((x as real - s as real / k as real) * (x as real - s as real / k as real))
  {
    var kr := k as real;
    var d := x as real - s as real / kr;
    assert d * kr == (k * x - s) as real;
    assert (k * k) as real == kr * kr;
    assert ((k * x - s) * (k * x - s)) as real == (k * x - s) as real * (k * x - s) as real;
    assert kr * kr * (d * d) == (d * kr) * (d * kr);
  }

  /** The integer numerator is k^2 times the squared deviations from s/k. */
  lemma {:induction false} ScaledDevReal(xs: seq<nat>, k: int, s: int)
    requires k > 0
    ensures ScaledDev(xs, k, s) as real == (k * k) as real * SquaredDeviations(xs, s as real / k as real)
    decreases |xs|
  {
    if |xs| > 0 {
      ScaledDevReal(xs[1..], k, s);
      ScaleSquare(xs[0], k, s);
      ScaledDevStep(xs, k, s);
      AddScaled((k * xs[0] - s) * (k * xs[0] - s), ScaledDev(xs[1..], k, s), (k * k) as real,
                (xs[0] as real - s as real / k as real) * (xs[0] as real - s as real / k as real),
                SquaredDeviations(xs[1..], s as real / k as real));
    }
  }

  /** One unfolding of the scaled deviations. */
  lemma ScaledDevStep(xs: seq<nat>, k: int, s: int)
    requires |xs| > 0
    ensures ScaledDev(xs, k, s) == (k * xs[0] - s) * (k * xs[0] - s) + ScaledDev(xs[1..], k, s)
  {
  }

  /** Two scaled terms add up to the scaled sum. */
  lemma AddScaled(a: int, b: int, c: real, x: real, y: real)
    requires a as real == c * x && b as real == c * y
    ensures (a + b) as real == c * (x + y)
  {
  }

  lemma DenominatorAsReal(k: nat)
    requires k >= 2
    ensures VarianceDenominator(k) as real == (k * k) as real * (k - 1) as real
  {
    var a, b := k * k, k - 1;
    assert VarianceDenominator(k) == a * b;
  }

  /** A common positive factor cancels from a quotient. */
  lemma CancelReal(n: real, d: real, a: real, q: real, m: real)
    requires a > 0.0 && m > 0.0 && n == a * q && d == a * m
    ensures n / d == q / m
  {
    assert (q / m) * d == a * q;
  }

  /** The model's variance is the textbook sample variance with one degree
      of freedom removed: the squared deviations from the mean over k - 1. */
  lemma SampleVarianceIsDdof1(xs: seq<nat>)
    requires |xs| >= 2
    ensures SampleVariance(xs) == Some(SquaredDeviations(xs, Mean(xs)) / (|xs| - 1) as real)
  {
    var k := |xs|;
    ScaledDevReal(xs, k, Sum(xs));
    DenominatorAsReal(k);
    CancelReal(ScaledDev(xs, k, Sum(xs)) as real, VarianceDenominator(k) as real,
               (k * k) as real, SquaredDeviations(xs, Mean(xs)), (k - 1) as real);
  }

  /** Counts 1, 2 and 3 have sample variance 1; dividing by k instead of
      k - 1 would give 2/3. */
  lemma VarianceOfOneTwoThree()
    ensures SampleVariance([1, 2, 3]) == Some(1.0)
    ensures SquaredDeviations([1, 2, 3], Mean([1, 2, 3])) / 3.0 == 2.0 / 3.0
  {
    assert [1, 2, 3][1..] == [2, 3] && [2, 3][1..] == [3];
    assert Sum([1, 2, 3]) == 6;
    assert ScaledDev([1, 2, 3], 3, 6) == 18;
    assert Mean([1, 2, 3]) == 2.0;
  }

  /** The properties of the non-negative square root the model relies on:
      it is non-negative, monotone, zero only at zero, and the root of
      n * n is n. */
  ghost predicate IsSqrt(sqrt: real -> real) {
    && sqrt(0.0) == 0.0
    && (forall x :: 0.0 < x ==> 0.0 < sqrt(x))
    && (forall x, y :: 0.0 <= x <= y ==> sqrt(x) <= sqrt(y))
    && (forall n: nat :: sqrt((n * n) as real) == n as real)
  }

  /** The root of a value in [0, n^2] lies in [0, n] and is zero only for zero. */
  lemma SqrtFacts(sqrt: real -> real, x: real, n: nat)
    requires IsSqrt(sqrt)
    requires 0.0 <= x <= (n * n) as real
    ensures 0.0 <= sqrt(x) <= n as real
    ensures sqrt(x) == 0.0 <==> x == 0.0
  {
    assert sqrt(0.0) <= sqrt(x) <= sqrt((n * n) as real);
  }

  /** `Series.std()`: the root of the sample variance, undefined (NaN) for
      fewer than two values. `sqrt` is the floating-point square root. */
  function SampleStd(xs: seq<nat>, sqrt: real -> real): (s: Value)
    ensures s == NaN <==> |xs| < 2
    ensures IsSqrt(sqrt) && s.Num? ==> 0.0 <= s.v <= Sum(xs) as real
    ensures IsSqrt(sqrt) && s.Num? ==> (s.v == 0.0 <==> AllEqual(xs))
    ensures s.Num? ==> SampleVariance(xs).Some? && s.v == sqrt(SampleVariance(xs).value)
  {
    match SampleVariance(xs)
    case None => NaN
    case Some(v) =>
      RootOfVariance(xs, sqrt, v);
      Num(sqrt(v))
  }

  /** What a root of the sample variance inherits from the variance's bounds. */
  lemma RootOfVariance(xs: seq<nat>, sqrt: real -> real, v: real)
    requires SampleVariance(xs) == Some(v)
    ensures IsSqrt(sqrt) ==> 0.0 <= sqrt(v) <= Sum(xs) as real
    ensures IsSqrt(sqrt) ==> (sqrt(v) == 0.0 <==> AllEqual(xs))
  {
    if IsSqrt(sqrt) {
      SqrtFacts(sqrt, v, Sum(xs));
    }
  }
}

=== FILE: text.dfy ===
/** The string operations the metric engine relies on: lower-casing,
    substring search and cutting a timestamp at its first '.'. */
module Text {

  /** Lower-cases one ASCII letter; every other character is returned unchanged. */
  function Lower(c: char): (l: char)
    ensures !('A' <= l <= 'Z')
    ensures !('A' <= c <= 'Z') ==> l == c
    ensures 'A' <= c <= 'Z' ==> 'a' <= l <= 'z' && l as int == c as int + 32
  {
    if 'A' <= c <= 'Z' then (c as int + 32) as char else c
  }

  /** Lower-cases a string character by character. */
  function LowerStr(s: string): (r: string)
    ensures |r| == |s|
    ensures forall i :: 0 <= i < |s| ==> r[i] == Lower(s[i])
  {
    seq(|s|, i requires 0 <= i < |s| => Lower(s[i]))
  }

  /** Lower-casing twice changes nothing more, and it leaves a string
      unchanged exactly when the string has no capital letter. */
  lemma LowerStrFixed(s: string)
    ensures LowerStr(LowerStr(s)) == LowerStr(s)
    ensures LowerStr(s) == s <==> forall i :: 0 <= i < |s| ==> !('A' <= s[i] <= 'Z')
  {
    if LowerStr(s) == s {
      forall i | 0 <= i < |s| ensures !('A' <= s[i] <= 'Z') {
        assert s[i] == Lower(s[i]);
      }
    }
  }

  /** `sub` occurs in `s` starting at index `i`. */
  ghost predicate OccursAt(s: string, sub: string, i: int) {
    0 <= i && i + |sub| <= |s| && s[i..i + |sub|] == sub
  }

  /** A word whose first character never appears in `s` occurs nowhere in it. */
  lemma NoOccurrence(s: string, sub: string)
    requires |sub| > 0 && sub[0] !in s
    ensures forall i :: !OccursAt(s, sub, i)
  {
  }

  /** Python's `sub in s` for two strings: a left-to-right scan. */
  function Contains(s: string, sub: string): bool
    decreases |s|
  {
    if |s| < |sub| then false
    else if s[..|sub|] == sub then true
    else Contains(s[1..], sub)
  }

  /** The scan finds `sub` exactly when it occurs somewhere in `s`. */
  lemma {:induction false} ContainsSpec(s: string, sub: string)
    ensures Contains(s, sub) <==> exists i :: OccursAt(s, sub, i)
    decreases |s|
  {
    if |s| < |sub| {
    } else if s[..|sub|] == sub {
      assert OccursAt(s, sub, 0);
    } else {
      assert |sub| > 0;
      ContainsSpec(s[1..], sub);
      if Contains(s[1..], sub) {
        var j :| OccursAt(s[1..], sub, j);
        assert s[1..][j..j + |sub|] == s[j + 1..j + 1 + |sub|];
        assert OccursAt(s, sub, j + 1);
      }
      if exists i :: OccursAt(s, sub, i) {
        var i :| OccursAt(s, sub, i);
        assert i != 0;
        assert s[1..][i - 1..i - 1 + |sub|] == s[i..i + |sub|];
        assert OccursAt(s[1..], sub, i - 1);
      }
    }
  }

  /** Python's `s.split(sep)[0]`: the part of `s` before the first `sep`,
      or all of `s` when `sep` does not occur. */
  function BeforeFirst(s: string, sep: char): (p: string)
    ensures p <= s
    ensures sep !in p
    ensures |p| < |s| ==> s[|p|] == sep
    ensures sep !in s ==> p == s
  {
    if |s| == 0 then []
    else if s[0] == sep then []
    else [s[0]] + BeforeFirst(s[1..], sep)
  }

  /** Cutting `p + sep + q` at its first `sep` gives back `p` whenever `p`
      holds no `sep`: whatever follows the separator is dropped. */
  lemma {:induction false} BeforeFirstJoin(p: string, sep: char, q: string)
    requires sep !in p
    ensures BeforeFirst(p + [sep] + q, sep) == p
  {
    if |p| > 0 {
      var s := p + [sep] + q;
      assert s[0] == p[0];
      assert s[1..] == p[1..] + [sep] + q;
      BeforeFirstJoin(p[1..], sep, q);
      assert p == [p[0]] + p[1..];
    }
  }
}

=== FILE: wrappers.dfy ===
/** Failure-carrying return types shared by the whole model. */
module Wrappers {

  /** A value that may be absent (Python's `None`). */
  datatype Option<+T> = None | Some(value: T)

  /** The outcome of a step that can raise: either a value or the error it raised. */
  datatype Result<+R, +E> = Success(value: R) | Failure(error: E)
}
